=== FILE: README.md ===
# HV bias ramp controller, modelled in Dafny

This project models the high-voltage (HV) bias ramp controller of
`pyChangeHV.py`. The controller sets a detector's HV through a DCRC board's
QI bias. A calibration table of (QI setting, resulting HV) pairs is read from
a tab-separated file. The wanted HV is turned into a QI setting by an exact
match or by linear interpolation between the two neighbouring entries. The
HV is walked from its start value to its target at a bounded rate: every
update period it moves one increment, and it snaps onto the target once the
target is less than an increment away. Optionally the controller pre-biases:
it ramps to an overshoot of the target, holds it, and then ramps back down.

The model is six modules:

- `Results` (results.dfy) holds the `Option` and `Result` types that stand
  for the program's `None` returns and raised exceptions.
- `Numbers` (numbers.dfy) holds exact-real versions of Python's `abs`,
  `int()` on a float and `round(x, n)`. `Numbers.Abs` is `abs`,
  `Numbers.TruncToInt` is `int()`, and `Numbers.Round` (through
  `RoundToScale`) is `round`.
- `Calibration` (calibration.dfy) models `calcBiasSetting` as
  `Calibration.CalcBiasSetting`. Its `for` loop is `Calibration.Scan`. The
  module also gives a reference description of the lookup, entry by entry
  ("the first entry that matches or brackets the target decides"), and
  proves the loop equal to it.
- `Ramp` (ramp.dfy) models the stepper `changeHVFromTo`.
  - The loop's assignment to the current HV is `Ramp.Update`, for any
    increment. `Ramp.NextHV` is the same assignment for a positive one.
  - `Ramp.ChangeHVFromTo` is the whole function, written as a loop like the
    original's. It is proved equal to a recursive `Ramp.RampOf`.
  - `RampOf` is proved equal to looking up a table-independent `Plan` of
    HVs in order.
  - The QI writes and the sleeps are recorded as a trace of `Effect`s.
- `CalFile` (cal_file.dfy) models `loadCalTable` as `CalFile.LoadCalTable`.
  It covers line splitting as Python's file iterator does it, `strip()`,
  `split('\t')`, and the two-field rows with the header skipped. The round
  trip from a written-out table back to the table is proved.
- `ChangeHV` (change_hv.dfy) models `main` from the update-period check on,
  as `ChangeHV.SetHV`. That is the direct ramp, or the up / wait / down
  pre-bias sequence. The pre-bias overshoot `HVpre` is
  `ChangeHV.PreBiasTarget`, and the wait in seconds is
  `ChangeHV.WaitSeconds`. `ChangeHV.Run` is the whole run from the
  calibration file's contents.

Failures are values rather than process exits.
- A lookup with no setting gives `OutOfRange`. This is the source's `None`,
  after which the stepper exits.
- A lookup in an empty table gives `EmptyTable`. This is the `IndexError`
  of `calTable[0]`.
- An empty file gives `MissingHeader`. This is the `StopIteration` of
  `next(f)`.
- A data line that does not read gives `BadRow(line, problem)`. This is the
  `ValueError` or `IndexError` of the row.
- A negative pre-bias wait gives `NegativeWait`. `time.sleep` refuses such a
  wait.

## Model

| member | source | states |
|---|---|---|
| Numbers.Abs | pyChangeHV.py:25 | The absolute value is non-negative and is the value or its negation. |
| Numbers.TruncToInt | pyChangeHV.py:147 | `int()` of a float truncates toward zero: the result's magnitude is at most the value's and less than one below it, with the same sign. |
| Numbers.RoundToScale | pyChangeHV.py:169 | `round(x, n)` gives a multiple of 10^-n that is within half a unit of x, and a tie goes away from zero, as in Python 2. |
| Numbers.NearestInt | pyChangeHV.py:35 | The integer nearest to a value, with halves going away from zero; this underlies the three-decimal rounding of each written setting. |
| Numbers.RoundOnGrid | pyChangeHV.py:169 | A value already on the 10^-n grid is returned unchanged by rounding. |
| Calibration.Interpolate | pyChangeHV.py:56-60 | The bracketing pair has distinct HVs, so the slope's division is defined. The result lies on the line through both entries and between their settings, strictly when the settings differ. |
| Calibration.ScanFirstDecider | pyChangeHV.py:50-62 | The loop from any entry up to the first deciding entry returns that entry's setting or its interpolation. |
| Calibration.ScanNoDecider | pyChangeHV.py:50-65 | When no entry matches or brackets the target, the loop falls through and the lookup returns None. |
| Calibration.CalcBiasSettingSpec | pyChangeHV.py:41-65 | For every table and target: an empty table fails on its first index; the first entry that matches or brackets the target fixes the result; the result is None exactly when no entry does. |
| Calibration.FirstHitWins | pyChangeHV.py:44-55 | An entry whose HV is the target, with no earlier entry matching or bracketing it, gives exactly its own setting. This includes the first entry. |
| Calibration.FirstDeciderOf | pyChangeHV.py:50-62 | When some entry decides the lookup, a first deciding entry exists. |
| Calibration.CoveredTargetsSucceed | pyChangeHV.py:41-65 | Every target between the first and the last entry's HV gets a setting, whether or not the table is ordered. |
| Calibration.OrderedLookupSucceedsIffInRange | pyChangeHV.py:42-65 | On a table ordered by HV, either way, a target gets a setting if and only if it lies between the first and last HV. |
| Calibration.OrderedExactHit | pyChangeHV.py:46-55 | On an ordered table, each entry's HV looks up exactly that entry's setting. |
| Calibration.OrderedInterpolates | pyChangeHV.py:56-60 | On an ordered table, a target strictly between neighbours gets the setting on the line through them. |
| Calibration.SingleEntry | pyChangeHV.py:44-65 | A one-entry table answers its own HV with its setting and every other target with None, never interpolating. |
| Calibration.ThreePointExample | pyChangeHV.py:41-65 | With entries (0,0), (1,10), (2,20), target 15 gives 1.5 and target 25 gives None. |
| Ramp.Direction | pyChangeHV.py:28 | The sign formula gives +1 when the current HV is below the target and -1 otherwise. |
| Ramp.NextHV | pyChangeHV.py:25-29 | One pass moves toward the target and never past it. It moves exactly one increment, unless the target is within an increment, when it lands on the target. |
| Ramp.NextHVCountsDown | pyChangeHV.py:24-29 | Each pass uses up one of the remaining passes (the distance in increments, rounded up), so the loop terminates. |
| Ramp.ZeroIncrementStalls | pyChangeHV.py:22-29 | With a zero increment a pass leaves the HV unchanged. When the start HV has a setting the loop therefore never ends; when it has none, the first lookup exits. |
| Ramp.NegativeIncrementMovesAway | pyChangeHV.py:22-29 | With a negative increment each pass moves the HV away from the target by the increment's size, on the same side. |
| Ramp.NegativeRateRampsDown | pyChangeHV.py:22-31 | Asked for 10 V to 15 V at -1 V/s, the first pass goes to 9 V, which the three-point table serves. |
| Ramp.Plan | pyChangeHV.py:24-29 | The visited HVs are empty exactly when start equals target. Otherwise they end on the target, and every one lies between start and target and differs from the start. |
| Ramp.PlanLength | pyChangeHV.py:22-29 | The loop makes ceil(distance / increment) passes. |
| Ramp.PlanPass | pyChangeHV.py:24-29 | Pass i is one loop pass from the HV held before it, and only the last pass lands on the target. |
| Ramp.PlanClosedForm | pyChangeHV.py:28-29 | Before the snap, pass i stands exactly i+1 increments from the start, toward the target. |
| Ramp.PlanStep | pyChangeHV.py:25-29 | Every non-final pass changes the HV by exactly one increment; the final one by more than zero and at most one increment. |
| Ramp.PlanProgress | pyChangeHV.py:24-29 | Every pass ends strictly closer to the target than it started. |
| Ramp.ApplyPlan | pyChangeHV.py:31-34 | Looking HVs up in order applies a prefix of them, each with its looked-up setting. It stops exactly at the first HV without a setting and records that lookup's error. |
| Ramp.RampFollowsPlan | pyChangeHV.py:20-37 | The loop's ramp is the table-independent plan looked up in order. |
| Ramp.StepEffects | pyChangeHV.py:35-36 | Each applied step contributes exactly two effects: a write and a sleep. |
| Ramp.StepEffectsAt | pyChangeHV.py:35-36 | Step i writes its setting rounded to three decimals to the DCRC, then sleeps one update period. |
| Ramp.ChangeHVFromTo | pyChangeHV.py:20-37 | The loop as written performs exactly the recursive ramp, and its trace is that ramp's writes and sleeps. |
| Ramp.RampReachesTarget | pyChangeHV.py:21-30 | Start equal to the target writes nothing. No ramp takes more than ceil(distance / increment) steps, and one that finishes takes exactly that many and ends on the target. Every applied HV lies between start and target. |
| Ramp.RampIncrements | pyChangeHV.py:22-29 | Every applied step short of the target moves exactly one increment, the step onto the target at most one, and each ends closer to the target. |
| Ramp.RampAbortsAtFirstGap | pyChangeHV.py:31-34 | The ramp aborts if and only if some planned HV has no setting. It aborts at the first such HV, with nothing applied after it. |
| Ramp.RampCompletesWithinTable | pyChangeHV.py:24-34 | When start and target both lie within the table's first-to-last HV range, the ramp reaches the target. |
| Ramp.ZeroToThreeExample | pyChangeHV.py:20-37 | 0 V to 3 V at 1 V/s with a 1 s period applies 1, 2 and 3 V, each write followed by a 1 s sleep. |
| CalFile.Lines | pyChangeHV.py:94 | A file has no lines exactly when it is empty. |
| CalFile.LinesConcat | pyChangeHV.py:92-94 | The lines the file iterator yields make up the whole contents. |
| CalFile.LinesShape | pyChangeHV.py:94 | Each line holds a newline only at its end, and every line but possibly the last ends in one. |
| CalFile.LinesCons | pyChangeHV.py:93-94 | A newline-terminated first line is split off whole, with the remaining lines read from the rest. |
| CalFile.StripLeft | pyChangeHV.py:95 | Leading strip removes exactly the maximal whitespace prefix. |
| CalFile.StripRight | pyChangeHV.py:95 | Trailing strip removes exactly the maximal whitespace suffix. |
| CalFile.StripTrimmed | pyChangeHV.py:95 | Strip leaves a trimmed string alone and removes its line's newline. |
| CalFile.Split | pyChangeHV.py:95 | Splitting on tab always yields at least one field, and no field contains a tab. |
| CalFile.JoinSplit | pyChangeHV.py:95 | Joining the fields with the separator gives back the string. |
| CalFile.SplitJoin | pyChangeHV.py:95 | Splitting a join of tab-free fields gives back the fields. |
| CalFile.ParseRow | pyChangeHV.py:95-97 | A data line reads as an entry if and only if it has at least two fields and both parse; the entry is (field 0, field 1). A missing field is reported only when field 0 parsed, since it is converted first. |
| CalFile.LoadRows | pyChangeHV.py:94-97 | On success there is one entry per line, each that line's reading. On failure the first failing line is named with its error, and all earlier lines read. |
| CalFile.LoadTable | pyChangeHV.py:92-93 | Only an empty file lacks the header line. |
| CalFile.LoadTableEntries | pyChangeHV.py:90-98 | A loaded table has one entry per line after the header, each that line's reading. |
| CalFile.LoadTableFirstError | pyChangeHV.py:94-97 | A row failure names the first line, counting the header as line 1, that does not read, with its error. |
| CalFile.RowsAllRead | pyChangeHV.py:94-97 | Conversely, lines that all read give the table of their readings. |
| CalFile.RowsStopAt | pyChangeHV.py:94-97 | Conversely, the first line that does not read fails the load with its line number and error. |
| CalFile.LoadReadsEveryRow | pyChangeHV.py:90-98 | Conversely for a whole file: if every line after the header reads, the file loads as those entries. |
| CalFile.LoadStopsAtFirstBadRow | pyChangeHV.py:90-98 | Conversely for a whole file: the first bad line after the header fails the load, naming that line. |
| CalFile.ParseFormatRow | pyChangeHV.py:95-97 | A row written as setting, tab, HV, newline reads back as the same entry. |
| CalFile.LinesOfTable | pyChangeHV.py:93-94 | A written-out file's lines are the header line, one line per entry, then the lines of whatever follows. |
| CalFile.FormattedRowsRead | pyChangeHV.py:94-97 | In a written-out file, line i after the header reads back as entry i. |
| CalFile.LoadFormatted | pyChangeHV.py:90-98 | Loading a table written out with a faithful number printer gives the table back. |
| CalFile.HeaderOnly | pyChangeHV.py:93-94 | A file with only its header line loads as the empty table, with or without the newline. |
| CalFile.BlankLine | pyChangeHV.py:95-97 | A blank line is not skipped: its one empty field fails to parse. |
| CalFile.TrailingBlankLine | pyChangeHV.py:94-97 | A blank line after the last row fails the whole load at that line. |
| ChangeHV.SetHV | pyChangeHV.py:140-177 | A period under 1 s is refused before any ramp, and so is a non-positive rate (see Findings). Otherwise there are one or two ramps, exactly one without pre-bias. |
| ChangeHV.DirectSession | pyChangeHV.py:162-165 | Without pre-bias, for any table, the session is exactly the one ramp from start to target, with its writes and period sleeps, ending as that ramp ends. |
| ChangeHV.PreBiasSession | pyChangeHV.py:166-177 | With pre-bias, for any table, once the ramp up reaches the overshoot and the wait is not negative, the session is the ramp up, one sleep of the wait, then the ramp down. It ends as the ramp down ends, including an abort there. |
| ChangeHV.DirectRamp | pyChangeHV.py:162-165 | Without pre-bias there is one ramp from start to target. When the table covers both, it completes on the target, writes nothing if they are equal, and sleeps only update periods. |
| ChangeHV.OnlyPeriodSleeps | pyChangeHV.py:35-36 | Every sleep of a ramp lasts one update period. |
| ChangeHV.PreBiasUpWaitDown | pyChangeHV.py:166-177 | With pre-bias, a wait that is not negative and a covering table, the run ramps up to the overshoot, ending on it, sleeps the wait once, then ramps down, ending on the target. |
| ChangeHV.PreBiasAbortSkipsWait | pyChangeHV.py:166-171 | With pre-bias, a failed lookup on the way up ends the run: no wait and no ramp down, only that ramp's writes and period sleeps. |
| ChangeHV.PreBiasNegativeWaitStops | pyChangeHV.py:171-177 | With pre-bias and a negative wait, the run stops after a completed ramp up, because the sleep is refused: no ramp down follows, and the only sleeps are update periods. |
| ChangeHV.PreBiasExample | pyChangeHV.py:169 | 15 % over 45 V rounds to 51.75 V, and a 5-minute wait is 300 s. |
| ChangeHV.Run | pyChangeHV.py:140-152 | A run gets as far as ramping exactly when the period is at least 1 s, the rate is positive and the calibration file loads. Otherwise it stops before any write. |
| ChangeHV.RunFormatted | pyChangeHV.py:140-177 | End to end: a run given a calibration file written out from a table, with a number printer that reads back, does exactly what the HV-setting part does with that table. |
| ChangeHV.HeaderOnlyFileWritesNothing | pyChangeHV.py:88-98 | A header-only calibration file loads as an empty table, so a direct ramp's first lookup fails and the run exits without writing anything. |

## Left out

- Writing to the control system: `setDCRCQI` and `time.sleep` are recorded
  as `SetQI` and `Sleep` effects in a trace. `pyodbedit`, the printed
  messages and `setHVpowerOnOff` are not modelled.
- Command-line parsing: argparse, the missing-argument error at line 130,
  and turning the option strings into numbers are not modelled. This
  includes splitting the pre-bias string "15/5". `Request` holds the parsed
  values.
- Opening the calibration file: `ChangeHV.Run` takes the file's contents,
  so the `IOError` that `open()` raises for a missing or unreadable file
  (pyChangeHV.py:92) is not modelled.
- Number parsing in the calibration file: Python's `float` is the parameter
  `parse`. A number printer that it reads back (`Printable`) is a
  parameter too.
- Floating point: HVs and settings are exact reals. `round` is modelled as
  exact decimal rounding with halves going away from zero, not as the
  binary floating-point result. The loop test `HVcurr != HVend` is exact
  equality.
- pyHVscan.py, pyQscan.py and pyFlash.py are orchestration scripts over the
  same control-system interface and are not part of this model.
- The calibration table is not checked for order, because the program does
  not check it. Lemmas that need order (`OrderedExactHit`,
  `OrderedInterpolates`, `OrderedLookupSucceedsIffInRange`) take it as a
  hypothesis. The lookup itself is modelled as written for any table.
- Ramp.ChangeHVFromTo: requires a positive rate and a period of at least
  one second. `ChangeHV.SetHV` builds its ramps with `RampOf`, which this
  method's ensures equate to the loop, and only does so after both checks
  pass. With a rate of zero or below the loop as written never reaches the
  target; see Findings.
- Ramp.RampReachesTarget, Ramp.RampIncrements, Ramp.RampAbortsAtFirstGap and
  Ramp.RampCompletesWithinTable: stated for a positive increment only, for
  the same reason.
- ChangeHV.DirectRamp and ChangeHV.PreBiasUpWaitDown: they state that the
  ramps complete only for tables that cover the start, the overshoot and
  the target. For any table, the order of ramps and waits is stated by
  `DirectSession` and `PreBiasSession`:
  - `PreBiasSession` includes a ramp down that aborts;
  - `PreBiasAbortSkipsWait` covers a ramp up that aborts;
  - `PreBiasNegativeWaitStops` covers a refused wait.
- An empty table: the lookup fails with `EmptyTable` (the index error of
  `calTable[0]`) rather than with the out-of-range result. The program
  exits either way.

## Findings

| source | as written | input that shows it | evidently intended | confidence | as-written member | corrected member |
|---|---|---|---|---|---|---|
| pyChangeHV.py:138-143 | The ramp rate is taken from the command line unchecked, and the stepper's increment is the rate times the period. With a rate of 0 a pass leaves the HV where it is, so when the start HV has a setting the loop writes that setting forever. With a negative rate each pass moves the HV away from the target until the lookup fails. The in-repository caller pyHVscan.py:130-136 reaches this: it passes a negative drift rate as `-HVrampRate` with HVend below HVstart, so the HV moves up instead of drifting down. | `-HVrampRate -1 -HVstart 10 -HVend 15` with the table (0,0), (1,10), (2,20): the first write is the setting for 9 V. `-HVrampRate 0` with HVstart different from HVend, when HVstart has a setting, never ends. | A rate of zero or below is refused as a usage error, like an update period under 1 s. This remedy turns pyHVscan's negative drift rate into a usage error; that caller would have to pass the rate's magnitude. | not executed; high that the loop misbehaves, medium on the intended remedy | Ramp.NegativeRateRampsDown | ChangeHV.SetHV |

`Ramp.ZeroIncrementStalls` and `Ramp.NegativeIncrementMovesAway` state the
as-written behaviour for every input. `ChangeHV.SetHV` refuses the rate
with `RateNotPositive` after the period check. `ChangeHV.DirectRamp` and
`ChangeHV.PreBiasUpWaitDown` prove that every accepted request whose pre-bias wait is not negative
ends on its target when the table covers the HVs involved. `ChangeHV.DirectSession` and
`ChangeHV.PreBiasSession` give the ramp sequence for any table.

=== FILE: cal_file.dfy ===
/** Reading the calibration file (`loadCalTable` in pyChangeHV.py): the first
    line is a header and is skipped; every later line is stripped of
    surrounding whitespace and split at tabs, its first field is the DCRC
    setting and its second the HV. Turning a field into a number is Python's
    `float`, which this model takes as a parameter. */
module CalFile {
  import opened Results
  import opened Calibration

  /** The characters Python 2's `str.strip()` removes. */
  predicate IsSpace(c: char) {
    c == ' ' || c == '\t' || c == '\n' || c == '\r' || c == '\U{000B}' || c == '\U{000C}'
  }

  // ---------------------------------------------------------------------
  // Lines, as iterating over a file opened in text mode yields them
  // ---------------------------------------------------------------------

  /** The position of the first `c` in `s`, or `|s|` when there is none. */
  function Find(s: string, c: char): (k: nat)
    ensures k <= |s|
    ensures c !in s[..k]
    ensures k < |s| ==> s[k] == c
  {
    if s == [] then 0
    else if s[0] == c then 0
    else
      var k := 1 + Find(s[1..], c);
      assert s[..k] == [s[0]] + s[1..][..k - 1];
      k
  }

  /** `Find` stops at the first occurrence. */
  lemma {:induction false} FindAppend(a: string, c: char, b: string)
    requires c !in a
    ensures Find(a + [c] + b, c) == |a|
  {
    var s := a + [c] + b;
    if a != [] {
      assert s[0] == a[0];
      assert s[1..] == a[1..] + [c] + b;
      FindAppend(a[1..], c, b);
    }
  }

  /** `Find` runs off the end of a string without `c`. */
  lemma {:induction false} FindAbsent(s: string, c: char)
    requires c !in s
    ensures Find(s, c) == |s|
  {
    if s != [] {
      assert s[0] in s;
      FindAbsent(s[1..], c);
    }
  }

  /** A line as the file iterator yields it: not empty, ending at its first
      newline if it has one. */
  predicate IsLine(l: string) {
    l != [] && '\n' !in l[..|l| - 1]
  }

  function Concat(ls: seq<string>): string {
    if ls == [] then [] else ls[0] + Concat(ls[1..])
  }

  /** The lines of a file's contents, as iterating over the open file yields
      them. */
  function Lines(s: string): (ls: seq<string>)
    ensures ls == [] <==> s == []
    decreases |s|
  {
    if s == [] then []
    else
      var k := Find(s, '\n');
      var n := if k < |s| then k + 1 else k;
      [s[..n]] + Lines(s[n..])
  }

  /** Together the lines are the whole contents. */
  lemma {:induction false} LinesConcat(s: string)
    ensures Concat(Lines(s)) == s
    decreases |s|
  {
    if s != [] {
      var k := Find(s, '\n');
      var n := if k < |s| then k + 1 else k;
      calc {
        Concat(Lines(s));
        Concat([s[..n]] + Lines(s[n..]));
        { assert ([s[..n]] + Lines(s[n..]))[1..] == Lines(s[n..]); }
        s[..n] + Concat(Lines(s[n..]));
        { LinesConcat(s[n..]); }
        s[..n] + s[n..];
        s;
      }
    }
  }

  /** Every line ends at its first newline, and every line but perhaps the
      last ends in one. */
  lemma {:induction false} LinesShape(s: string)
    ensures forall i :: 0 <= i < |Lines(s)| ==> IsLine(Lines(s)[i])
    ensures forall i :: 0 <= i < |Lines(s)| - 1 ==> Lines(s)[i] != [] && Lines(s)[i][|Lines(s)[i]| - 1] == '\n'
    decreases |s|
  {
    if s != [] {
      var k := Find(s, '\n');
      var n := if k < |s| then k + 1 else k;
      var l := s[..n];
      var ls, rest := Lines(s), Lines(s[n..]);
      assert ls == [l] + rest;
      assert IsLine(l) by {
        assert l[..|l| - 1] == s[..k][..n - 1];
      }
      assert rest != [] ==> l[|l| - 1] == '\n';
      LinesShape(s[n..]);
      forall i | 1 <= i < |ls|
        ensures IsLine(ls[i])
        ensures i < |ls| - 1 ==> ls[i] != [] && ls[i][|ls[i]| - 1] == '\n'
      {
        assert ls[i] == rest[i - 1];
      }
    }
  }

  /** A line that ends in a newline is split off whole. */
  lemma LinesCons(l: string, rest: string)
    requires IsLine(l) && l[|l| - 1] == '\n'
    ensures Lines(l + rest) == [l] + Lines(rest)
  {
    var s := l + rest;
    var k := |l| - 1;
    assert l == l[..k] + ['\n'];
    assert s == l[..k] + ['\n'] + rest;
    FindAppend(l[..k], '\n', rest);
    assert s[..k + 1] == l;
    assert s[k + 1..] == rest;
  }

  // ---------------------------------------------------------------------
  // str.strip() and str.split('\t')
  // ---------------------------------------------------------------------

  /** Drops leading whitespace: the result is the suffix of `s` that starts
      at its first non-space character. */
  function StripLeft(s: string): (r: string)
    ensures |r| <= |s| && r == s[|s| - |r|..]
    ensures forall i :: 0 <= i < |s| - |r| ==> IsSpace(s[i])
    ensures r == [] || !IsSpace(r[0])
  {
    if s == [] || !IsSpace(s[0]) then s
    else
      StripLeft(s[1..])
  }

  /** Drops trailing whitespace: the result is the prefix of `s` that ends at
      its last non-space character. */
  function StripRight(s: string): (r: string)
    ensures |r| <= |s| && r == s[..|r|]
    ensures forall i :: |r| <= i < |s| ==> IsSpace(s[i])
    ensures r == [] || !IsSpace(r[|r| - 1])
  {
    if s == [] || !IsSpace(s[|s| - 1]) then s
    else
      StripRight(s[..|s| - 1])
  }

  function Strip(s: string): string {
    StripRight(StripLeft(s))
  }

  /** Stripping does nothing to a string that neither starts nor ends in
      whitespace, and removes a trailing newline from one. */
  lemma StripTrimmed(x: string)
    requires x != [] && !IsSpace(x[0]) && !IsSpace(x[|x| - 1])
    ensures Strip(x) == x
    ensures Strip(x + "\n") == x
  {
    var s := x + "\n";
    assert s[0] == x[0] && s[|x| - 1] == x[|x| - 1] && s[|s| - 1] == '\n';
    assert StripLeft(x) == x;
    assert StripLeft(s) == s;
    assert StripRight(x) == x;
    assert StripRight(s) == x;
  }

  /** The fields of `s` between occurrences of `sep`, as Python's string
      split gives them: always at least one, and none containing `sep`. */
  function Split(s: string, sep: char): (fs: seq<string>)
    ensures |fs| > 0
    ensures forall i :: 0 <= i < |fs| ==> sep !in fs[i]
    decreases |s|
  {
    var k := Find(s, sep);
    if k == |s| then
      assert s[..k] == s;
      [s]
    else
      var fs := [s[..k]] + Split(s[k + 1..], sep);
      assert fs[1..] == Split(s[k + 1..], sep);
      fs
  }

  function Join(fs: seq<string>, sep: char): string
    requires |fs| > 0
  {
    if |fs| == 1 then fs[0] else fs[0] + [sep] + Join(fs[1..], sep)
  }

  /** Joining the fields back with the separator gives the string again. */
  lemma {:induction false} JoinSplit(s: string, sep: char)
    ensures Join(Split(s, sep), sep) == s
    decreases |s|
  {
    var k := Find(s, sep);
    if k == |s| {
      assert s[..k] == s;
    } else {
      JoinSplit(s[k + 1..], sep);
      assert s == s[..k] + [sep] + s[k + 1..];
    }
  }

  /** Splitting undoes joining, provided no field holds the separator. */
  lemma {:induction false} SplitJoin(fs: seq<string>, sep: char)
    requires |fs| > 0
    requires forall i :: 0 <= i < |fs| ==> sep !in fs[i]
    ensures Split(Join(fs, sep), sep) == fs
    decreases |fs|
  {
    var s := Join(fs, sep);
    if |fs| == 1 {
      FindAbsent(fs[0], sep);
    } else {
      var rest := Join(fs[1..], sep);
      var k := |fs[0]|;
      assert s == fs[0] + [sep] + rest;
      assert Find(s, sep) == k by {
        FindAppend(fs[0], sep, rest);
      }
      assert s[..k] == fs[0] && s[k + 1..] == rest;
      calc {
        Split(s, sep);
        [fs[0]] + Split(rest, sep);
        { SplitJoin(fs[1..], sep); }
        [fs[0]] + fs[1..];
        fs;
      }
    }
  }

  // ---------------------------------------------------------------------
  // Rows and the table
  // ---------------------------------------------------------------------

  /** Why a data line could not be read: `float` refused a field
      (ValueError), or the line had no second field (IndexError). */
  datatype RowError = BadNumber | MissingField

  /** An empty file has no header line (`next` raises StopIteration); any
      other failure names the 1-based line of the file where it happened. */
  datatype LoadError = MissingHeader | BadRow(line: nat, problem: RowError)

  /** One data line. Python builds the pair left to right, so the first field
      is converted before the second is looked up; fields past the second are
      ignored. */
  function ParseRow(line: string, parse: string -> Option<real>): (r: Result<Entry, RowError>)
    ensures var fs := Split(Strip(line), '\t');
            && (r.Ok? <==> |fs| >= 2 && parse(fs[0]).Some? && parse(fs[1]).Some?)
            && (r.Ok? ==> r.value == Entry(parse(fs[0]).value, parse(fs[1]).value))
            && (r == Err(MissingField) <==> |fs| == 1 && parse(fs[0]).Some?)
  {
    var fs := Split(Strip(line), '\t');
    match parse(fs[0])
    case None => Err(BadNumber)
    case Some(setting) =>
      if |fs| < 2 then Err(MissingField)
      else
        match parse(fs[1])
        case None => Err(BadNumber)
        case Some(hv) => Ok(Entry(setting, hv))
  }

  /** The data lines `rows`, the first of which is line `first` of the file,
      each read by `row`. On success there is one entry per line, each what
      that line reads as; otherwise the error names the first line that does
      not read, and every line before it does. */
  function LoadRows(rows: seq<string>, row: string -> Result<Entry, RowError>, first: nat)
    : (r: Result<Table, LoadError>)
    ensures r.Ok? ==> |r.value| == |rows|
    ensures r.Ok? ==> forall i :: 0 <= i < |rows| ==> row(rows[i]) == Ok(r.value[i])
    ensures r.Err? ==> r.error.BadRow? && first <= r.error.line < first + |rows|
    ensures r.Err? ==> row(rows[r.error.line - first]) == Err(r.error.problem)
    ensures r.Err? ==> forall i :: 0 <= i < r.error.line - first ==> row(rows[i]).Ok?
    decreases |rows|
  {
    if rows == [] then Ok([])
    else
      var head := row(rows[0]);
      if head.Err? then Err(BadRow(first, head.error))
      else
        var tail := LoadRows(rows[1..], row, first + 1);
        if tail.Err? then
          assert forall i :: 1 <= i < tail.error.line - first ==> rows[i] == rows[1..][i - 1];
          tail
        else
          var t := [head.value] + tail.value;
          assert forall i :: 1 <= i < |rows| ==> rows[i] == rows[1..][i - 1] && t[i] == tail.value[i - 1];
          Ok(t)
  }

  /** A file read with `row` for its data lines: the header line is skipped
      unread, every line after it is a table entry in file order. Only an
      empty file lacks the header. */
  function LoadTable(content: string, row: string -> Result<Entry, RowError>): (r: Result<Table, LoadError>)
    ensures r == Err(MissingHeader) <==> content == []
  {
    var ls := Lines(content);
    if ls == [] then Err(MissingHeader) else LoadRows(ls[1..], row, 2)
  }

  /** On success there is one entry per line after the header, each what
      that line reads as. */
  lemma LoadTableEntries(content: string, row: string -> Result<Entry, RowError>)
    requires LoadTable(content, row).Ok?
    ensures |LoadTable(content, row).value| == |Lines(content)| - 1
    ensures forall i :: 1 <= i < |Lines(content)| ==> row(Lines(content)[i]) == Ok(LoadTable(content, row).value[i - 1])
  {
    var ls := Lines(content);
    var r := LoadRows(ls[1..], row, 2);
    assert LoadTable(content, row) == r;
    forall i | 1 <= i < |ls|
      ensures row(ls[i]) == Ok(r.value[i - 1])
    {
      assert ls[i] == ls[1..][i - 1];
    }
  }

  /** A failure past the header names the first line that does not read,
      and every line between the header and it does. */
  lemma LoadTableFirstError(content: string, row: string -> Result<Entry, RowError>)
    requires LoadTable(content, row).Err? && LoadTable(content, row).error.BadRow?
    ensures var line := LoadTable(content, row).error.line;
            && 2 <= line <= |Lines(content)|
            && row(Lines(content)[line - 1]) == Err(LoadTable(content, row).error.problem)
            && forall i :: 1 <= i < line - 1 ==> row(Lines(content)[i]).Ok?
  {
    var ls := Lines(content);
    var r := LoadRows(ls[1..], row, 2);
    assert LoadTable(content, row) == r;
    assert ls[r.error.line - 1] == ls[1..][r.error.line - 2];
    forall i | 1 <= i < r.error.line - 1
      ensures row(ls[i]).Ok?
    {
      assert ls[i] == ls[1..][i - 1];
    }
  }

  /** Conversely: when every line reads as an entry, the table is those
      entries in order. */
  lemma RowsAllRead(rows: seq<string>, row: string -> Result<Entry, RowError>, first: nat, t: Table)
    requires |rows| == |t|
    requires forall i :: 0 <= i < |rows| ==> row(rows[i]) == Ok(t[i])
    ensures LoadRows(rows, row, first) == Ok(t)
  {
    var r := LoadRows(rows, row, first);
    assert r.Ok?;
    assert r.value == t;
  }

  /** Conversely: the first line that does not read stops the load, and the
      error names it. */
  lemma RowsStopAt(rows: seq<string>, row: string -> Result<Entry, RowError>, first: nat, k: nat, e: RowError)
    requires k < |rows|
    requires forall i :: 0 <= i < k ==> row(rows[i]).Ok?
    requires row(rows[k]) == Err(e)
    ensures LoadRows(rows, row, first) == Err(BadRow(first + k, e))
  {
    var r := LoadRows(rows, row, first);
    assert r.Err?;
    var j := r.error.line - first;
    assert row(rows[j]).Err?;
    assert j >= k;
    assert j <= k;
  }

  /** The same two facts for a whole file. */
  lemma LoadReadsEveryRow(content: string, row: string -> Result<Entry, RowError>, t: Table)
    requires |Lines(content)| == |t| + 1
    requires forall i :: 1 <= i < |Lines(content)| ==> row(Lines(content)[i]) == Ok(t[i - 1])
    ensures LoadTable(content, row) == Ok(t)
  {
    var ls := Lines(content);
    assert LoadRows(ls[1..], row, 2) == Ok(t) by {
      forall i | 0 <= i < |t|
        ensures row(ls[1..][i]) == Ok(t[i])
      {
        assert ls[1..][i] == ls[i + 1];
      }
      RowsAllRead(ls[1..], row, 2, t);
    }
  }

  lemma LoadStopsAtFirstBadRow(content: string, row: string -> Result<Entry, RowError>, k: nat, e: RowError)
    requires 1 <= k < |Lines(content)|
    requires forall i :: 1 <= i < k ==> row(Lines(content)[i]).Ok?
    requires row(Lines(content)[k]) == Err(e)
    ensures LoadTable(content, row) == Err(BadRow(k + 1, e))
  {
    var ls := Lines(content);
    assert LoadRows(ls[1..], row, 2) == Err(BadRow(k + 1, e)) by {
      forall i | 0 <= i < k - 1
        ensures row(ls[1..][i]).Ok?
      {
        assert ls[1..][i] == ls[i + 1];
      }
      assert ls[1..][k - 1] == ls[k];
      RowsStopAt(ls[1..], row, 2, k - 1, e);
    }
  }

  /** The row reader `loadCalTable` uses. */
  function Reader(parse: string -> Option<real>): string -> Result<Entry, RowError> {
    line => ParseRow(line, parse)
  }

  /** `loadCalTable`: the file read with the two-column row reader. */
  function LoadCalTable(content: string, parse: string -> Option<real>): Result<Table, LoadError> {
    LoadTable(content, Reader(parse))
  }

  // ---------------------------------------------------------------------
  // Writing a table out and reading it back
  // ---------------------------------------------------------------------

  /** A number printer `show` whose text for `x` reads back as `x` and sits
      in one field of one line: not empty, no tab or newline inside, no
      whitespace at either end. */
  predicate Printable(show: real -> string, parse: string -> Option<real>, x: real) {
    var s := show(x);
    && parse(s) == Some(x)
    && s != [] && '\t' !in s && '\n' !in s
    && !IsSpace(s[0]) && !IsSpace(s[|s| - 1])
  }

  function FormatRow(e: Entry, show: real -> string): string {
    show(e.setting) + "\t" + show(e.hv) + "\n"
  }

  function FormatRows(t: Table, show: real -> string): string {
    if t == [] then [] else FormatRow(t[0], show) + FormatRows(t[1..], show)
  }

  /** A calibration file for `t` under the given header line. */
  function FormatTable(header: string, t: Table, show: real -> string): string {
    header + "\n" + FormatRows(t, show)
  }

  lemma ParseFormatRow(e: Entry, show: real -> string, parse: string -> Option<real>)
    requires Printable(show, parse, e.setting) && Printable(show, parse, e.hv)
    ensures ParseRow(FormatRow(e, show), parse) == Ok(e)
  {
    var a, b := show(e.setting), show(e.hv);
    var x := a + "\t" + b;
    assert FormatRow(e, show) == x + "\n";
    assert x[0] == a[0] && x[|x| - 1] == b[|b| - 1];
    StripTrimmed(x);
    assert Join([a, b], '\t') == x;
    SplitJoin([a, b], '\t');
  }

  /** The lines a written-out table's rows make, one per entry. */
  function RowLines(t: Table, show: real -> string): (ls: seq<string>)
    ensures |ls| == |t|
    ensures forall i :: 0 <= i < |t| ==> ls[i] == FormatRow(t[i], show)
  {
    if t == [] then [] else [FormatRow(t[0], show)] + RowLines(t[1..], show)
  }

  /** Lines that each end in their only newline are split back off a
      file made of them, whatever follows. */
  lemma {:induction false} LinesOfConcat(ls: seq<string>, rest: string)
    requires forall i :: 0 <= i < |ls| ==> IsLine(ls[i]) && ls[i][|ls[i]| - 1] == '\n'
    ensures Lines(Concat(ls) + rest) == ls + Lines(rest)
    decreases |ls|
  {
    if ls == [] {
      assert Concat(ls) + rest == rest;
    } else {
      calc {
        Lines(Concat(ls) + rest);
        { assert Concat(ls) + rest == ls[0] + (Concat(ls[1..]) + rest); }
        Lines(ls[0] + (Concat(ls[1..]) + rest));
        { LinesCons(ls[0], Concat(ls[1..]) + rest); }
        [ls[0]] + Lines(Concat(ls[1..]) + rest);
        { LinesOfConcat(ls[1..], rest); }
        [ls[0]] + (ls[1..] + Lines(rest));
        { assert ls == [ls[0]] + ls[1..]; }
        ls + Lines(rest);
      }
    }
  }

  lemma {:induction false} FormatRowsConcat(t: Table, show: real -> string)
    ensures FormatRows(t, show) == Concat(RowLines(t, show))
    decreases |t|
  {
    if t != [] {
      FormatRowsConcat(t[1..], show);
      assert RowLines(t, show)[1..] == RowLines(t[1..], show);
    }
  }

  /** A written-out row is one line, provided the printed numbers hold no
      newline. */
  lemma FormatRowIsLine(e: Entry, show: real -> string)
    requires '\n' !in show(e.setting) && '\n' !in show(e.hv)
    ensures IsLine(FormatRow(e, show)) && FormatRow(e, show)[|FormatRow(e, show)| - 1] == '\n'
  {
    var l := FormatRow(e, show);
    var a, b := show(e.setting), show(e.hv);
    assert l[..|l| - 1] == a + "\t" + b;
  }

  /** A header line followed by a table's rows and then `rest`. */
  lemma LinesOfTable(header: string, t: Table, show: real -> string, rest: string)
    requires '\n' !in header
    requires forall i :: 0 <= i < |t| ==> '\n' !in show(t[i].setting) && '\n' !in show(t[i].hv)
    ensures Lines(FormatTable(header, t, show) + rest) == [header + "\n"] + RowLines(t, show) + Lines(rest)
  {
    var h := header + "\n";
    var ls := [h] + RowLines(t, show);
    assert FormatTable(header, t, show) == Concat(ls) by {
      FormatRowsConcat(t, show);
      assert ls[1..] == RowLines(t, show);
    }
    assert forall i :: 0 <= i < |ls| ==> IsLine(ls[i]) && ls[i][|ls[i]| - 1] == '\n' by {
      assert IsLine(h) by { assert h[..|h| - 1] == header; }
      forall i | 1 <= i < |ls|
        ensures IsLine(ls[i]) && ls[i][|ls[i]| - 1] == '\n'
      {
        FormatRowIsLine(t[i - 1], show);
      }
    }
    LinesOfConcat(ls, rest);
  }

  /** The lines of a written-out table after its header read back as its
      entries, whatever follows them. */
  lemma FormattedRowsRead(header: string, t: Table, show: real -> string, parse: string -> Option<real>, rest: string)
    requires '\n' !in header
    requires forall i :: 0 <= i < |t| ==> Printable(show, parse, t[i].setting) && Printable(show, parse, t[i].hv)
    ensures Lines(FormatTable(header, t, show) + rest) == [header + "\n"] + RowLines(t, show) + Lines(rest)
    ensures forall i :: 1 <= i <= |t| ==> Reader(parse)(Lines(FormatTable(header, t, show) + rest)[i]) == Ok(t[i - 1])
  {
    LinesOfTable(header, t, show, rest);
    var ls := Lines(FormatTable(header, t, show) + rest);
    forall i | 1 <= i <= |t|
      ensures ParseRow(ls[i], parse) == Ok(t[i - 1])
    {
      assert ls[i] == FormatRow(t[i - 1], show);
      ParseFormatRow(t[i - 1], show, parse);
    }
  }

  /** Reading back a table written out with a faithful number printer gives
      the same table, whatever the header says. */
  lemma LoadFormatted(header: string, t: Table, show: real -> string, parse: string -> Option<real>)
    requires '\n' !in header
    requires forall i :: 0 <= i < |t| ==> Printable(show, parse, t[i].setting) && Printable(show, parse, t[i].hv)
    ensures LoadCalTable(FormatTable(header, t, show), parse) == Ok(t)
  {
    var content := FormatTable(header, t, show);
    FormattedRowsRead(header, t, show, parse, []);
    assert content + [] == content;
    LoadReadsEveryRow(content, Reader(parse), t);
  }

  /** A file holding only its header line gives the empty table, which the
      lookup then refuses. */
  lemma HeaderOnly(header: string, parse: string -> Option<real>)
    requires '\n' !in header
    ensures header != [] ==> LoadCalTable(header, parse) == Ok([])
    ensures LoadCalTable(header + "\n", parse) == Ok([])
  {
    FindAbsent(header, '\n');
    assert header[..|header|] == header;
    assert header[|header|..] == [];
    var h := header + "\n";
    assert IsLine(h) by { assert h[..|h| - 1] == header; }
    LinesCons(h, []);
    assert h + [] == h;
  }

  /** A blank line is not skipped: its only field is empty, which `float`
      refuses. */
  lemma BlankLine(parse: string -> Option<real>)
    requires parse("") == None
    ensures ParseRow("\n", parse) == Err(BadNumber)
    ensures ParseRow("", parse) == Err(BadNumber)
  {
    assert Strip("\n") == "" && Strip("") == "";
    assert Split("", '\t') == [""];
  }

  /** So a blank line left after the last row of a file makes the whole load
      fail, on the line after the last row. */
  lemma TrailingBlankLine(header: string, t: Table, show: real -> string, parse: string -> Option<real>)
    requires '\n' !in header && parse("") == None
    requires forall i :: 0 <= i < |t| ==> Printable(show, parse, t[i].setting) && Printable(show, parse, t[i].hv)
    ensures LoadCalTable(FormatTable(header, t, show) + "\n", parse) == Err(BadRow(|t| + 2, BadNumber))
  {
    var content := FormatTable(header, t, show) + "\n";
    FormattedRowsRead(header, t, show, parse, "\n");
    assert Lines("\n") == ["\n"] by {
      LinesCons("\n", []);
      assert "\n" + [] == "\n";
    }
    var ls := Lines(content);
    assert ls[|t| + 1] == "\n";
    assert Reader(parse)(ls[|t| + 1]) == Err(BadNumber) by {
      BlankLine(parse);
    }
    LoadStopsAtFirstBadRow(content, Reader(parse), |t| + 1, BadNumber);
  }
}

=== FILE: calibration.dfy ===
/** The calibration lookup of pyChangeHV.py: a table of (DCRC QI setting,
    resulting HV) pairs, and `calcBiasSetting`, which turns a wanted HV into
    the QI setting that produces it by scanning the table for an exact entry
    or a pair of neighbours that bracket the HV and interpolating linearly. */
module Calibration {
  import opened Numbers
  import opened Results

  /** One row of the calibration file: the DCRC QI control voltage and the
      high voltage it produces. */
  datatype Entry = Entry(setting: real, hv: real)

  type Table = seq<Entry>

  /** Why a lookup produced no setting. `OutOfRange` is the function's `None`
      return; `EmptyTable` is the index error that `calTable[0]` raises. */
  datatype LookupError = OutOfRange | EmptyTable

  /** The straight line through a and b, evaluated at hv. The bracket
      guarantees a.hv != b.hv, so the slope's division is well defined. */
  function Interpolate(a: Entry, b: Entry, hv: real): (s: real)
    requires StrictlyBetween(a.hv, hv, b.hv)
    ensures (s - a.setting) * (b.hv - a.hv) == (b.setting - a.setting) * (hv - a.hv)
    ensures ClosedBetween(a.setting, s, b.setting)
    ensures a.setting != b.setting ==> StrictlyBetween(a.setting, s, b.setting)
  {
    var m := (b.setting - a.setting) / (b.hv - a.hv);
    var s := a.setting + m * (hv - a.hv);
    InterpolateFraction(a, b, hv);
    s
  }

  /** The interpolated setting is a.setting plus a fraction strictly between
      0 and 1 of the step to b.setting. */
  lemma InterpolateFraction(a: Entry, b: Entry, hv: real)
    requires StrictlyBetween(a.hv, hv, b.hv)
    ensures var m := (b.setting - a.setting) / (b.hv - a.hv);
            var s := a.setting + m * (hv - a.hv);
            && (s - a.setting) * (b.hv - a.hv) == (b.setting - a.setting) * (hv - a.hv)
            && ClosedBetween(a.setting, s, b.setting)
            && (a.setting != b.setting ==> StrictlyBetween(a.setting, s, b.setting))
  {
    var d := b.setting - a.setting;
    var f := (hv - a.hv) / (b.hv - a.hv);
    UnitRatio(hv - a.hv, b.hv - a.hv);
    assert (d / (b.hv - a.hv)) * (hv - a.hv) == d * f;
    FractionOfStep(d, f);
  }

  /** A part over a larger whole of the same sign is a proper fraction. */
  lemma UnitRatio(x: real, y: real)
    requires (0.0 < x < y) || (y < x < 0.0)
    ensures 0.0 < x / y < 1.0
  {
    var f := x / y;
    assert f * y == x;
    if y > 0.0 {
      ScaleCompare(f, 0.0, y);
      ScaleCompare(1.0, f, y);
      assert 0.0 * y == 0.0 && 1.0 * y == y;
    } else {
      ScaleCompare(f, 0.0, -y);
      ScaleCompare(1.0, f, -y);
      assert f * (-y) == -x && 0.0 * (-y) == 0.0 && 1.0 * (-y) == -y;
    }
  }

  lemma FractionOfStep(d: real, f: real)
    requires 0.0 < f < 1.0
    ensures ClosedBetween(0.0, d * f, d)
    ensures d != 0.0 ==> StrictlyBetween(0.0, d * f, d)
  {
    if d > 0.0 {
      assert d - d * f == d * (1.0 - f);
    } else if d < 0.0 {
      assert d * f - d == (-d) * (1.0 - f);
    }
  }

  /** The entry whose HV the scan holds as `HVA` when it reaches entry i:
      the first entry before the loop starts, and the previous entry after. */
  function Anchor(t: Table, i: nat): Entry
    requires i < |t|
  {
    if i == 0 then t[0] else t[i - 1]
  }

  /** The loop of `calcBiasSetting` from entry i on. */
  function Scan(hv: real, t: Table, i: nat): Result<real, LookupError>
    requires i <= |t|
    decreases |t| - i
  {
    if i == |t| then Err(OutOfRange)
    else if t[i].hv == hv then Ok(t[i].setting)
    else if StrictlyBetween(Anchor(t, i).hv, hv, t[i].hv) then Ok(Interpolate(Anchor(t, i), t[i], hv))
    else Scan(hv, t, i + 1)
  }

  /** The DCRC setting that produces `hv` according to table `t`: an exact hit
      on the first entry, otherwise the scan over the later entries. */
  function CalcBiasSetting(hv: real, t: Table): Result<real, LookupError> {
    if |t| == 0 then Err(EmptyTable)
    else if t[0].hv == hv then Ok(t[0].setting)
    else Scan(hv, t, 0)
  }

  // A reference description of the lookup, entry by entry rather than as a
  // loop: entry i decides the lookup when its HV is the target, or when it
  // and its predecessor bracket the target.

  predicate Hits(t: Table, i: nat, hv: real)
    requires i < |t|
  {
    t[i].hv == hv
  }

  predicate Brackets(t: Table, i: nat, hv: real)
    requires i < |t|
  {
    0 < i && StrictlyBetween(t[i - 1].hv, hv, t[i].hv)
  }

  predicate Decides(t: Table, i: nat, hv: real)
    requires i < |t|
  {
    Hits(t, i, hv) || Brackets(t, i, hv)
  }

  /** Entry k is the first entry that decides the lookup. */
  predicate FirstDecider(t: Table, k: nat, hv: real) {
    && k < |t|
    && Decides(t, k, hv)
    && forall i :: 0 <= i < k ==> !Decides(t, i, hv)
  }

  /** The setting a deciding entry gives: its own on a hit, the line through
      it and its predecessor on a bracket. */
  function DecidedSetting(t: Table, k: nat, hv: real): real
    requires k < |t| && Decides(t, k, hv)
  {
    if Hits(t, k, hv) then t[k].setting else Interpolate(t[k - 1], t[k], hv)
  }

  lemma {:induction false} ScanFirstDecider(hv: real, t: Table, i: nat, k: nat)
    requires i <= k && FirstDecider(t, k, hv)
    ensures Scan(hv, t, i) == Ok(DecidedSetting(t, k, hv))
    decreases k - i
  {
    if i < k {
      assert !Decides(t, i, hv);
      assert i == 0 ==> !StrictlyBetween(Anchor(t, i).hv, hv, t[i].hv);
      ScanFirstDecider(hv, t, i + 1, k);
    }
  }

  lemma {:induction false} ScanNoDecider(hv: real, t: Table, i: nat)
    requires i <= |t|
    requires forall j :: 0 <= j < |t| ==> !Decides(t, j, hv)
    ensures Scan(hv, t, i) == Err(OutOfRange)
    decreases |t| - i
  {
    if i < |t| {
      assert !Decides(t, i, hv);
      ScanNoDecider(hv, t, i + 1);
    }
  }

  /** The lookup agrees with the reference description on every table and
      every target: the first deciding entry fixes the setting, and the
      lookup is out of range exactly when no entry decides. */
  lemma {:induction false} CalcBiasSettingSpec(hv: real, t: Table)
    ensures |t| == 0 <==> CalcBiasSetting(hv, t) == Err(EmptyTable)
    ensures forall k :: FirstDecider(t, k, hv) ==> CalcBiasSetting(hv, t) == Ok(DecidedSetting(t, k, hv))
    ensures CalcBiasSetting(hv, t) == Err(OutOfRange)
            <==> |t| > 0 && forall i :: 0 <= i < |t| ==> !Decides(t, i, hv)
  {
    forall k | FirstDecider(t, k, hv)
      ensures CalcBiasSetting(hv, t) == Ok(DecidedSetting(t, k, hv))
    {
      if t[0].hv != hv {
        ScanFirstDecider(hv, t, 0, k);
      } else {
        assert Decides(t, 0, hv);
        assert k == 0;
      }
    }
    if |t| > 0 {
      if forall i :: 0 <= i < |t| ==> !Decides(t, i, hv) {
        assert !Decides(t, 0, hv);
        ScanNoDecider(hv, t, 0);
      } else {
        var k := FirstDeciderOf(t, hv);
        assert CalcBiasSetting(hv, t) == Ok(DecidedSetting(t, k, hv)) by {
          if t[0].hv != hv {
            ScanFirstDecider(hv, t, 0, k);
          }
        }
      }
    }
  }

  /** An entry whose HV is the target gives its own setting, exactly, when
      no earlier entry matches or brackets the target; in particular the
      first entry always does when it matches. */
  lemma FirstHitWins(t: Table, k: nat, hv: real)
    requires k < |t| && t[k].hv == hv
    requires forall i :: 0 <= i < k ==> !Decides(t, i, hv)
    ensures CalcBiasSetting(hv, t) == Ok(t[k].setting)
  {
    assert FirstDecider(t, k, hv);
    CalcBiasSettingSpec(hv, t);
  }

  /** Some entry decides, so a first one does. */
  function FirstDeciderOf(t: Table, hv: real): (k: nat)
    requires exists i :: 0 <= i < |t| && Decides(t, i, hv)
    ensures FirstDecider(t, k, hv)
  {
    FirstDeciderFrom(t, hv, 0)
  }

  function FirstDeciderFrom(t: Table, hv: real, i: nat): (k: nat)
    requires i <= |t|
    requires forall j :: 0 <= j < i ==> !Decides(t, j, hv)
    requires exists j :: i <= j < |t| && Decides(t, j, hv)
    ensures FirstDecider(t, k, hv)
    decreases |t| - i
  {
    if Decides(t, i, hv) then i else FirstDeciderFrom(t, hv, i + 1)
  }

  /** The target lies between the first and the last entry's HV,
      inclusive. */
  predicate Covers(t: Table, hv: real) {
    |t| > 0 && ClosedBetween(t[0].hv, hv, t[|t| - 1].hv)
  }

  /** Every target the table covers gets a setting, whatever order the
      table is in. */
  lemma {:induction false} CoveredTargetsSucceed(hv: real, t: Table)
    requires Covers(t, hv)
    ensures CalcBiasSetting(hv, t).Ok?
  {
    SomeDecider(t, hv, |t|);
    var i :| 0 <= i < |t| && Decides(t, i, hv);
    CalcBiasSettingSpec(hv, t);
    var r := CalcBiasSetting(hv, t);
    assert r != Err(OutOfRange) && r != Err(EmptyTable);
    // A case split over every constructor, with nothing to prove in any
    // arm: it lets the solver see that the two excluded errors are all the
    // errors there are.
    match r {
      case Ok(_) =>
      case Err(e) =>
        match e {
          case OutOfRange =>
          case EmptyTable =>
        }
    }
  }

  lemma {:induction false} SomeDecider(t: Table, hv: real, n: nat)
    requires 0 < n <= |t| && ClosedBetween(t[0].hv, hv, t[n - 1].hv)
    ensures exists i :: 0 <= i < n && Decides(t, i, hv)
    decreases n
  {
    if n == 1 {
      assert Decides(t, 0, hv);
    } else if ClosedBetween(t[0].hv, hv, t[n - 2].hv) {
      SomeDecider(t, hv, n - 1);
    } else {
      assert Decides(t, n - 1, hv);
    }
  }

  // The calibration file is meant to list the HVs in order; the program
  // trusts this without checking it. The lemmas below hold for such tables.

  predicate Increasing(t: Table) {
    forall i, j :: 0 <= i < j < |t| ==> t[i].hv < t[j].hv
  }

  predicate Decreasing(t: Table) {
    forall i, j :: 0 <= i < j < |t| ==> t[i].hv > t[j].hv
  }

  predicate Ordered(t: Table) {
    Increasing(t) || Decreasing(t)
  }

  /** On an ordered table, a target gets a setting exactly when it lies
      between the first and the last entry's HV. */
  lemma {:induction false} OrderedLookupSucceedsIffInRange(hv: real, t: Table)
    requires Ordered(t)
    ensures CalcBiasSetting(hv, t).Ok? <==> Covers(t, hv)
  {
    CalcBiasSettingSpec(hv, t);
    if Covers(t, hv) {
      CoveredTargetsSucceed(hv, t);
    }
  }

  /** On an ordered table, the HV of every entry looks up exactly that
      entry's setting. */
  lemma {:induction false} OrderedExactHit(t: Table, k: nat)
    requires Ordered(t) && k < |t|
    ensures CalcBiasSetting(t[k].hv, t) == Ok(t[k].setting)
  {
    var hv := t[k].hv;
    assert Hits(t, k, hv);
    forall i | 0 <= i < k
      ensures !Decides(t, i, hv)
    {
      if 0 < i {
        assert ClosedBetween(t[i - 1].hv, t[i].hv, hv);
      }
    }
    assert FirstDecider(t, k, hv);
    CalcBiasSettingSpec(hv, t);
  }

  /** On an ordered table, a target strictly between neighbouring entries
      gets the setting on the line through those two entries. */
  lemma {:induction false} OrderedInterpolates(t: Table, k: nat, hv: real)
    requires Ordered(t) && 0 < k < |t|
    requires StrictlyBetween(t[k - 1].hv, hv, t[k].hv)
    ensures CalcBiasSetting(hv, t) == Ok(Interpolate(t[k - 1], t[k], hv))
  {
    assert Brackets(t, k, hv);
    forall i | 0 <= i < k
      ensures !Decides(t, i, hv)
    {
      assert ClosedBetween(t[0].hv, t[i].hv, t[k - 1].hv);
      if 0 < i {
        assert ClosedBetween(t[0].hv, t[i - 1].hv, t[k - 1].hv);
      }
    }
    assert FirstDecider(t, k, hv);
    CalcBiasSettingSpec(hv, t);
  }

  /** A one-entry table answers its own HV and nothing else, and never
      reaches the interpolation. */
  lemma SingleEntry(e: Entry, hv: real)
    ensures CalcBiasSetting(hv, [e]) == if hv == e.hv then Ok(e.setting) else Err(OutOfRange)
  {
    assert Scan(hv, [e], 1) == Err(OutOfRange);
  }

  /** The worked example: between 10 V and 20 V the setting is interpolated,
      and above the table there is none. */
  lemma ThreePointExample()
    ensures CalcBiasSetting(15.0, [Entry(0.0, 0.0), Entry(1.0, 10.0), Entry(2.0, 20.0)]) == Ok(1.5)
    ensures CalcBiasSetting(25.0, [Entry(0.0, 0.0), Entry(1.0, 10.0), Entry(2.0, 20.0)]) == Err(OutOfRange)
  {}
}

=== FILE: change_hv.dfy ===
/** The HV-setting part of `main` in pyChangeHV.py: reject an update period
    below one second, then either ramp straight from the start HV to the
    target, or pre-bias: ramp to an overshoot of the target by a given
    percentage, hold it for a given number of minutes, and ramp back down to
    the target. */
module ChangeHV {
  import opened Numbers
  import opened Results
  import opened Calibration
  import opened Ramp
  import opened CalFile

  /** The `-HVpreBias "<percent>/<minutes>"` option, split and parsed. */
  datatype PreBias = PreBias(percent: real, waitMinutes: real)

  /** The parsed command line: DCRC number, start and target HV, ramp rate in
      V/s, update period in whole seconds, and the optional pre-bias. */
  datatype Request = Request(
    dcrc: int, start: real, end: real, rate: real, period: int, preBias: Option<PreBias>)

  /** A command-line error: the request is refused before anything is
      written. The program itself only checks the period; a rate of zero or
      below is refused here too, because the stepper never reaches the
      target with one (`ZeroIncrementStalls`, `NegativeIncrementMovesAway`). */
  datatype UsageError = PeriodTooShort | RateNotPositive

  datatype SessionEnd =
    | Completed
      /** A lookup failed and the program exits (`sys.exit`). */
    | RampAborted(hv: real, error: LookupError)
      /** The pre-bias wait came out negative, which `time.sleep` refuses. */
    | NegativeWait(seconds: int)

  /** Everything a run did: the ramps it ran, in order, its writes and
      sleeps, and how it ended. */
  datatype Session = Session(ramps: seq<RampRun>, effects: seq<Effect>, outcome: SessionEnd)

  /** The pre-bias overshoot: the target raised by the given percentage,
      rounded to two decimals. */
  function PreBiasTarget(end: real, percent: real): real {
    Round((1.0 + percent / 100.0) * end, 2)
  }

  /** The pre-bias hold time in whole seconds, truncated toward zero. */
  function WaitSeconds(minutes: real): int {
    TruncToInt(60.0 * minutes)
  }

  /** How a session that ends with ramp `r` ends. */
  function EndOf(r: RampRun): SessionEnd {
    match r.outcome
    case Reached => Completed
    case Aborted(hv, error) => RampAborted(hv, error)
  }

  function Effects(req: Request, r: RampRun): seq<Effect> {
    StepEffects(req.dcrc, req.period, r.steps)
  }

  /** `main` from the period check on, with a non-positive rate refused
      after the period check. */
  function SetHV(req: Request, t: Table): (r: Result<Session, UsageError>)
    ensures req.period < 1 ==> r == Err(PeriodTooShort)
    ensures req.period >= 1 && req.rate <= 0.0 ==> r == Err(RateNotPositive)
    ensures r.Ok? <==> req.period >= 1 && req.rate > 0.0
    ensures r.Ok? ==> 1 <= |r.value.ramps| <= 2
    ensures r.Ok? && req.preBias.None? ==> |r.value.ramps| == 1
  {
    if req.period < 1 then Err(PeriodTooShort)
    else if req.rate <= 0.0 then Err(RateNotPositive)
    else
      assert Increment(req.rate, req.period) > 0.0 by {
        ScalePositive(req.rate, req.period as real);
      }
      var inc := Increment(req.rate, req.period);
      match req.preBias
      case None =>
        var direct := RampOf(req.start, req.end, inc, t);
        Ok(Session([direct], Effects(req, direct), EndOf(direct)))
      case Some(pb) =>
        var pre := PreBiasTarget(req.end, pb.percent);
        var wait := WaitSeconds(pb.waitMinutes);
        var up := RampOf(req.start, pre, inc, t);
        if up.outcome.Aborted? then
          Ok(Session([up], Effects(req, up), EndOf(up)))
        else if wait < 0 then
          Ok(Session([up], Effects(req, up), NegativeWait(wait)))
        else
          var down := RampOf(pre, req.end, inc, t);
          Ok(Session([up, down], Effects(req, up) + [Sleep(wait)] + Effects(req, down), EndOf(down)))
  }

  /** The last HV a ramp applied. */
  function LastHV(r: RampRun): real
    requires r.steps != []
  {
    r.steps[|r.steps| - 1].hv
  }

  /** Without pre-bias, for any table, the session is the one ramp from the
      start HV to the target, its writes and period sleeps, and how that ramp
      ended. */
  lemma DirectSession(req: Request, t: Table)
    requires req.rate > 0.0 && req.period >= 1 && req.preBias.None?
    ensures var d := RampOf(req.start, req.end, Increment(req.rate, req.period), t);
            SetHV(req, t) == Ok(Session([d], Effects(req, d), EndOf(d)))
  {
    ScalePositive(req.rate, req.period as real);
  }

  /** With pre-bias, for any table: once the ramp up reaches the overshoot and
      the wait is not negative, the session is the ramp up, one sleep of the
      wait, and the ramp down, and it ends as the ramp down ends, aborted
      included. */
  lemma PreBiasSession(req: Request, t: Table)
    requires req.rate > 0.0 && req.period >= 1 && req.preBias.Some?
    requires WaitSeconds(req.preBias.value.waitMinutes) >= 0
    requires RampOf(req.start, PreBiasTarget(req.end, req.preBias.value.percent),
                    Increment(req.rate, req.period), t).outcome == Reached
    ensures var inc := Increment(req.rate, req.period);
            var pre := PreBiasTarget(req.end, req.preBias.value.percent);
            var up := RampOf(req.start, pre, inc, t);
            var down := RampOf(pre, req.end, inc, t);
            var wait := WaitSeconds(req.preBias.value.waitMinutes);
            SetHV(req, t) == Ok(Session([up, down], Effects(req, up) + [Sleep(wait)] + Effects(req, down), EndOf(down)))
  {
    ScalePositive(req.rate, req.period as real);
  }

  /** Without pre-bias, `main` runs the one ramp from the start HV to the
      target; when the table covers both it completes on the target, and its
      only sleeps are the update periods between writes. */
  lemma DirectRamp(req: Request, t: Table)
    requires req.rate > 0.0 && req.period >= 1 && req.preBias.None?
    requires Covers(t, req.start) && Covers(t, req.end)
    ensures var s := SetHV(req, t).value;
            && s.outcome == Completed
            && s.ramps == [RampOf(req.start, req.end, Increment(req.rate, req.period), t)]
            && (req.start == req.end <==> s.effects == [])
            && (req.start != req.end ==> LastHV(s.ramps[0]) == req.end)
            && (forall i :: 0 <= i < |s.effects| ==> s.effects[i].Sleep? ==> s.effects[i].seconds == req.period)
  {
    var inc := Increment(req.rate, req.period);
    ScalePositive(req.rate, req.period as real);
    var r := RampOf(req.start, req.end, inc, t);
    RampCompletesWithinTable(req.start, req.end, inc, t);
    RampReachesTarget(req.start, req.end, inc, t);
    OnlyPeriodSleeps(req, r);
  }

  lemma OnlyPeriodSleeps(req: Request, r: RampRun)
    ensures forall i :: 0 <= i < |Effects(req, r)| ==>
              Effects(req, r)[i].Sleep? ==> Effects(req, r)[i].seconds == req.period
  {
    forall i | 0 <= i < |Effects(req, r)|
      ensures Effects(req, r)[i].Sleep? ==> Effects(req, r)[i].seconds == req.period
    {
      StepEffectsAt(req.dcrc, req.period, r.steps, i / 2);
    }
  }

  /** With pre-bias, and a table that covers the start, the overshoot and the
      target, `main` ramps up to the overshoot, ending exactly on it, sleeps
      the wait once, then ramps to the target, ending exactly on it. */
  lemma PreBiasUpWaitDown(req: Request, t: Table)
    requires req.rate > 0.0 && req.period >= 1 && req.preBias.Some?
    requires WaitSeconds(req.preBias.value.waitMinutes) >= 0
    requires Covers(t, req.start) && Covers(t, req.end)
    requires Covers(t, PreBiasTarget(req.end, req.preBias.value.percent))
    ensures var s := SetHV(req, t).value;
            var pre := PreBiasTarget(req.end, req.preBias.value.percent);
            var inc := Increment(req.rate, req.period);
            && s.outcome == Completed
            && s.ramps == [RampOf(req.start, pre, inc, t), RampOf(pre, req.end, inc, t)]
            && s.effects
               == Effects(req, s.ramps[0]) + [Sleep(WaitSeconds(req.preBias.value.waitMinutes))] + Effects(req, s.ramps[1])
            && (req.start != pre ==> LastHV(s.ramps[0]) == pre)
            && (pre != req.end ==> LastHV(s.ramps[1]) == req.end)
  {
    var inc := Increment(req.rate, req.period);
    ScalePositive(req.rate, req.period as real);
    var pre := PreBiasTarget(req.end, req.preBias.value.percent);
    RampCompletesWithinTable(req.start, pre, inc, t);
    RampReachesTarget(req.start, pre, inc, t);
    RampCompletesWithinTable(pre, req.end, inc, t);
    RampReachesTarget(pre, req.end, inc, t);
  }

  /** With pre-bias, a failed lookup on the way up ends the run there: no
      wait and no ramp down follow, only the writes and update-period sleeps
      of the steps that were applied. */
  lemma PreBiasAbortSkipsWait(req: Request, t: Table)
    requires req.rate > 0.0 && req.period >= 1 && req.preBias.Some?
    requires RampOf(req.start, PreBiasTarget(req.end, req.preBias.value.percent),
                    Increment(req.rate, req.period), t).outcome.Aborted?
    ensures var s := SetHV(req, t).value;
            && |s.ramps| == 1
            && s.outcome.RampAborted?
            && CalcBiasSetting(s.outcome.hv, t) == Err(s.outcome.error)
            && |s.effects| == 2 * |s.ramps[0].steps|
            && (forall i :: 0 <= i < |s.effects| ==> s.effects[i].Sleep? ==> s.effects[i].seconds == req.period)
  {
    var inc := Increment(req.rate, req.period);
    ScalePositive(req.rate, req.period as real);
    var pre := PreBiasTarget(req.end, req.preBias.value.percent);
    RampAbortsAtFirstGap(req.start, pre, inc, t);
    OnlyPeriodSleeps(req, RampOf(req.start, pre, inc, t));
  }

  /** With pre-bias and a wait that comes out negative, the run stops after
      the ramp up: the sleep is refused, so neither the wait nor the ramp
      down happens, and every sleep in the trace is an update period. */
  lemma PreBiasNegativeWaitStops(req: Request, t: Table)
    requires req.rate > 0.0 && req.period >= 1 && req.preBias.Some?
    requires WaitSeconds(req.preBias.value.waitMinutes) < 0
    requires RampOf(req.start, PreBiasTarget(req.end, req.preBias.value.percent),
                    Increment(req.rate, req.period), t).outcome == Reached
    ensures var s := SetHV(req, t).value;
            && s.ramps == [RampOf(req.start, PreBiasTarget(req.end, req.preBias.value.percent),
                                  Increment(req.rate, req.period), t)]
            && s.outcome == NegativeWait(WaitSeconds(req.preBias.value.waitMinutes))
            && s.effects == Effects(req, s.ramps[0])
            && (forall i :: 0 <= i < |s.effects| ==> s.effects[i].Sleep? ==> s.effects[i].seconds == req.period)
  {
    var inc := Increment(req.rate, req.period);
    ScalePositive(req.rate, req.period as real);
    var pre := PreBiasTarget(req.end, req.preBias.value.percent);
    OnlyPeriodSleeps(req, RampOf(req.start, pre, inc, t));
  }

  /** The worked example: 15 % over 45 V is 51.75 V, and 5 minutes is 300
      seconds. */
  lemma PreBiasExample()
    ensures PreBiasTarget(45.0, 15.0) == 51.75
    ensures WaitSeconds(5.0) == 300
  {
    assert Scale(2) == 100.0;
    assert (1.0 + 15.0 / 100.0) * 45.0 == 51.75;
    RoundOnGrid(51.75, Scale(2));
  }

  /** Why a run stopped before it set any HV. */
  datatype StartError = Usage(usage: UsageError) | BadCalFile(load: LoadError)

  /** `main` end to end, given the calibration file's contents and the
      number parser: the update period is checked before the file is read,
      and a file that does not load stops the run before any write. */
  function Run(req: Request, content: string, parse: string -> Option<real>): (r: Result<Session, StartError>)
    ensures r.Ok? <==> req.period >= 1 && req.rate > 0.0 && LoadCalTable(content, parse).Ok?
  {
    if req.period < 1 then Err(Usage(PeriodTooShort))
    else if req.rate <= 0.0 then Err(Usage(RateNotPositive))
    else
      match LoadCalTable(content, parse)
      case Err(e) => Err(BadCalFile(e))
      case Ok(t) => Ok(SetHV(req, t).value)
  }

  /** End to end: a run given a calibration file written out from table `t`
      with a faithful number printer does what `SetHV` does with `t`. */
  lemma RunFormatted(req: Request, header: string, t: Table, show: real -> string, parse: string -> Option<real>)
    requires req.period >= 1 && req.rate > 0.0 && '\n' !in header
    requires forall i :: 0 <= i < |t| ==> Printable(show, parse, t[i].setting) && Printable(show, parse, t[i].hv)
    ensures Run(req, FormatTable(header, t, show), parse) == Ok(SetHV(req, t).value)
  {
    LoadFormatted(header, t, show, parse);
  }

  /** A calibration file with only its header line loads as an empty table,
      so the first lookup of a direct ramp fails: the run exits without
      writing anything. */
  lemma HeaderOnlyFileWritesNothing(req: Request, header: string, parse: string -> Option<real>)
    requires req.rate > 0.0 && req.period >= 1 && req.preBias.None? && req.start != req.end
    requires '\n' !in header
    ensures var r := Run(req, header + "\n", parse);
            && r.Ok?
            && r.value.effects == []
            && r.value.outcome.RampAborted? && r.value.outcome.error == EmptyTable
  {
    HeaderOnly(header, parse);
    var inc := Increment(req.rate, req.period);
    ScalePositive(req.rate, req.period as real);
    var n := NextHV(req.start, req.end, inc);
    assert CalcBiasSetting(n, []) == Err(EmptyTable);
    assert RampOf(req.start, req.end, inc, []) == RampRun([], Aborted(n, EmptyTable));
  }
}

=== FILE: numbers.dfy ===
/** Exact-real stand-ins for the numeric built-ins the ramp controller uses:
    `abs`, `int()` on a float, `round(x, n)`, and the step count of a ramp. */
module Numbers {

  function Abs(x: real): (r: real)
    ensures r >= 0.0 && (r == x || r == -x)
  {
    if x < 0.0 then -x else x
  }

  /** x lies in the closed interval spanned by a and b, whichever is larger. */
  predicate ClosedBetween(a: real, x: real, b: real) {
    (a <= x && x <= b) || (b <= x && x <= a)
  }

  /** x lies strictly inside the interval spanned by a and b, in either order. */
  predicate StrictlyBetween(a: real, x: real, b: real) {
    (a < x && x < b) || (a > x && x > b)
  }

  /** The least integer that is not below x. */
  function Ceil(x: real): (n: int)
    ensures n as real - 1.0 < x <= n as real
  {
    -((-x).Floor)
  }

  /** Python's `int()` applied to a float: truncation toward zero. */
  function TruncToInt(x: real): (n: int)
    ensures Abs(n as real) <= Abs(x) < Abs(n as real) + 1.0
    ensures n > 0 ==> x > 0.0
    ensures n < 0 ==> x < 0.0
  {
    if x < 0.0 then -((-x).Floor) else x.Floor
  }

  /** 10^digits as a real. */
  function Scale(digits: nat): (p: real)
    ensures p >= 1.0
  {
    if digits == 0 then 1.0 else 10.0 * Scale(digits - 1)
  }

  /** Python 2's `round(x, digits)` on an exactly represented value: the
      nearest multiple of 10^-digits, with halves rounded away from zero. */
  function Round(x: real, digits: nat): (r: real)
  {
    RoundToScale(x, Scale(digits))
  }

  /** Multiplying by a positive factor keeps the order. */
  lemma ScaleCompare(a: real, b: real, p: real)
    requires p > 0.0
    ensures a > b <==> a * p > b * p
  {
    if a > b {
      ScalePositive(a - b, p);
    } else {
      ScaleNonNegative(b - a, p);
    }
  }

  lemma ScalePositive(a: real, p: real)
    requires a > 0.0 && p > 0.0
    ensures a * p > 0.0
  {}

  lemma ScaleNonNegative(a: real, p: real)
    requires a >= 0.0 && p > 0.0
    ensures a * p >= 0.0
  {}

  /** x * p, kept behind a function name so that the solver treats the
      scaled value as one term. */
  function Scaled(x: real, p: real): real {
    x * p
  }

  /** One more multiple of x is x more. */
  lemma ScaledSucc(x: real, k: real)
    ensures Scaled(x, k + 1.0) == x + Scaled(x, k)
  {}

  /** Rounding to a multiple of 1/p, stated on the scaled value r * p: it is
      the integer nearest to x * p, and a tie goes to the one farther from
      zero. */
  function RoundToScale(x: real, p: real): (r: real)
    requires p >= 1.0
    ensures IsInteger(Scaled(r, p))
    ensures Abs(Scaled(r, p) - Scaled(x, p)) <= 0.5
    ensures Abs(Scaled(r, p) - Scaled(x, p)) == 0.5 ==> Abs(Scaled(r, p)) > Abs(Scaled(x, p))
  {
    var n := NearestInt(Scaled(x, p));
    ScaleBack(n, p);
    n as real / p
  }

  lemma ScaleBack(n: int, p: real)
    requires p >= 1.0
    ensures Scaled(n as real / p, p) == n as real
  {}

  predicate IsInteger(y: real) {
    y.Floor as real == y
  }

  /** The integer nearest to y, halves going away from zero. */
  function NearestInt(y: real): (n: int)
    ensures Abs(n as real - y) <= 0.5
    ensures Abs(n as real - y) == 0.5 ==> Abs(n as real) > Abs(y)
  {
    if y >= 0.0 then (y + 0.5).Floor else -((-y + 0.5).Floor)
  }

  /** A value already on the 1/p grid is left unchanged by rounding. */
  lemma RoundOnGrid(x: real, p: real)
    requires p >= 1.0 && IsInteger(Scaled(x, p))
    ensures RoundToScale(x, p) == x
  {
    var k := Scaled(x, p).Floor;
    assert NearestInt(k as real) == k;
    assert k as real / p == x;
  }
}

=== FILE: ramp.dfy ===
/** The rate-limited stepper `changeHVFromTo` of pyChangeHV.py. Every update
    period it moves the HV one increment (rate times period) toward the
    target, snapping onto the target once it is less than an increment away,
    looks the new HV up in the calibration table, writes the QI setting,
    rounded to millivolts, to the DCRC and sleeps for the period. A failed
    lookup ends the program at that step.

    The walk itself does not depend on the table, so it is described in two
    layers: `Plan`, the HVs the stepper visits, and `ApplyPlan`, which looks
    them up in order until the first failure. */
module Ramp {
  import opened Numbers
  import opened Results
  import opened Calibration

  /** One pass of the loop that got as far as writing a setting. */
  datatype Step = Step(hv: real, setting: real)

  datatype RampOutcome =
    | Reached
      /** The lookup for `hv` failed; the program exits at this point. */
    | Aborted(hv: real, error: LookupError)

  datatype RampRun = RampRun(steps: seq<Step>, outcome: RampOutcome)

  /** What the ramp does to the outside world: a write of the DCRC's QI bias
      (`setDCRCQI`), or a blocking sleep. */
  datatype Effect = SetQI(dcrc: int, volts: real) | Sleep(seconds: int)

  /** The stepper's `sign`, computed as the source does from the boolean
      `HVcurr < HVend`. */
  function Direction(curr: real, end: real): (d: real)
    ensures curr < end ==> d == 1.0
    ensures curr >= end ==> d == -1.0
  {
    ((if curr < end then 1.0 else 0.0) - 0.5) / 0.5
  }

  /** The number of loop passes still to come: the distance to the target in
      increments, rounded up. */
  function StepsLeft(curr: real, end: real, inc: real): nat
    requires inc > 0.0
  {
    var k := Ceil(Abs(end - curr) / inc);
    assert k >= 0 by {
      assert Abs(end - curr) / inc >= 0.0;
    }
    k
  }

  /** The assignment one loop pass makes to the current HV, for any
      increment: snap onto the target when it is less than an increment
      away, otherwise move one increment in the direction of `sign`. */
  function Update(curr: real, end: real, inc: real): real {
    if Abs(end - curr) < inc then end else curr + Direction(curr, end) * inc
  }

  /** The HV one loop pass moves to from `curr` when the increment is
      positive. */
  function NextHV(curr: real, end: real, inc: real): (n: real)
    requires inc > 0.0 && curr != end
    ensures ClosedBetween(curr, n, end) && n != curr
    ensures n == end ==> Abs(end - curr) <= inc
    ensures n != end ==> Abs(n - curr) == inc && Abs(end - n) == Abs(end - curr) - inc
    ensures n != end ==> (n < end <==> curr < end) && n == curr + Direction(curr, end) * inc
  {
    Update(curr, end, inc)
  }

  /** With a zero increment a pass leaves the HV where it was, so the loop
      condition never becomes false: when the start HV has a setting, the
      program writes that setting every period forever; when it has none,
      the first lookup ends the program. */
  lemma ZeroIncrementStalls(curr: real, end: real)
    requires curr != end
    ensures Update(curr, end, 0.0) == curr
  {
    assert Abs(end - curr) > 0.0;
  }

  /** With a negative increment every pass moves the HV away from the
      target, by the size of the increment, and keeps it on the same side,
      so the target is never reached. */
  lemma NegativeIncrementMovesAway(curr: real, end: real, inc: real)
    requires inc < 0.0 && curr != end
    ensures var n := Update(curr, end, inc);
            && Abs(end - n) == Abs(end - curr) - inc
            && (n < end <==> curr < end)
  {
  }

  /** A negative rate in action: asked to ramp from 10 V up to 15 V with a
      rate of -1 V/s, the first pass moves to 9 V, which the table can
      serve, so the program writes the setting for 9 V. */
  lemma NegativeRateRampsDown()
    ensures var t := [Entry(0.0, 0.0), Entry(1.0, 10.0), Entry(2.0, 20.0)];
            && Update(10.0, 15.0, Increment(-1.0, 1)) == 9.0
            && CalcBiasSetting(9.0, t) == Ok(0.9)
  {
    var t := [Entry(0.0, 0.0), Entry(1.0, 10.0), Entry(2.0, 20.0)];
    assert Scan(9.0, t, 0) == Scan(9.0, t, 1);
  }

  /** Each pass uses up exactly one of the remaining passes. */
  lemma NextHVCountsDown(curr: real, end: real, inc: real)
    requires inc > 0.0 && curr != end
    ensures StepsLeft(NextHV(curr, end, inc), end, inc) == StepsLeft(curr, end, inc) - 1
  {
    var d := Abs(end - curr);
    var n := NextHV(curr, end, inc);
    if d < inc {
      UnitRatio(d, inc);
    } else {
      assert Abs(end - n) == d - inc;
      ShiftQuotient(d, inc);
    }
  }

  lemma ShiftQuotient(d: real, c: real)
    requires c > 0.0
    ensures (d - c) / c == d / c - 1.0
  {
    assert (d - c) / c == d / c - c / c;
  }

  /** The HVs the stepper visits on its way from `curr` to `end`, one per
      loop pass. */
  function Plan(curr: real, end: real, inc: real): (p: seq<real>)
    requires inc > 0.0
    ensures p == [] <==> curr == end
    ensures p != [] ==> p[|p| - 1] == end
    ensures forall i :: 0 <= i < |p| ==> ClosedBetween(curr, p[i], end) && p[i] != curr
    decreases StepsLeft(curr, end, inc)
  {
    if curr == end then []
    else
      var n := NextHV(curr, end, inc);
      NextHVCountsDown(curr, end, inc);
      [n] + Plan(n, end, inc)
  }

  /** The ramp makes as many passes as the distance to cover holds
      increments, rounded up. */
  lemma {:induction false} PlanLength(curr: real, end: real, inc: real)
    requires inc > 0.0
    ensures |Plan(curr, end, inc)| == Ceil(Abs(end - curr) / inc)
    decreases StepsLeft(curr, end, inc)
  {
    if curr != end {
      var n := NextHV(curr, end, inc);
      NextHVCountsDown(curr, end, inc);
      PlanLength(n, end, inc);
    }
  }

  /** The HV the stepper held before visiting p[i]. */
  function Before(curr: real, p: seq<real>, i: nat): real
    requires i < |p|
  {
    if i == 0 then curr else p[i - 1]
  }

  /** Pass i of the plan is one loop pass from where the stepper stood
      before it, and only the last pass lands on the target. */
  lemma {:induction false} PlanPass(curr: real, end: real, inc: real, i: nat)
    requires inc > 0.0 && i < |Plan(curr, end, inc)|
    ensures var p := Plan(curr, end, inc);
            && Before(curr, p, i) != end
            && p[i] == NextHV(Before(curr, p, i), end, inc)
            && (p[i] == end <==> i == |p| - 1)
    decreases i
  {
    var n := NextHV(curr, end, inc);
    var p := Plan(curr, end, inc);
    var q := Plan(n, end, inc);
    assert p == [n] + q;
    if i > 0 {
      PlanPass(n, end, inc, i - 1);
      assert Before(curr, p, i) == Before(n, q, i - 1);
    }
  }

  /** Before the snap, pass i stands exactly i + 1 increments from the start,
      in the direction of the target. */
  lemma {:induction false} PlanClosedForm(curr: real, end: real, inc: real, i: nat)
    requires inc > 0.0 && i < |Plan(curr, end, inc)| - 1
    ensures Plan(curr, end, inc)[i] == curr + Scaled(Direction(curr, end) * inc, (i + 1) as real)
    decreases i
  {
    var n := NextHV(curr, end, inc);
    var p := Plan(curr, end, inc);
    var q := Plan(n, end, inc);
    assert p[0] == n && p[1..] == q by {
      assert p == [n] + q;
    }
    var d := Direction(curr, end) * inc;
    assert n == curr + d by {
      PlanPass(curr, end, inc, 0);
    }
    if i == 0 {
      ScaledSucc(d, 0.0);
    } else {
      assert q[i - 1] == n + Scaled(d, i as real) by {
        PlanClosedForm(n, end, inc, i - 1);
        assert n < end <==> curr < end;
      }
      ScaledSucc(d, i as real);
    }
  }

  /** Pass i moves exactly one increment, unless it is the last pass,
      which moves by more than nothing and at most one increment. */
  lemma PlanStep(curr: real, end: real, inc: real, i: nat)
    requires inc > 0.0 && i < |Plan(curr, end, inc)|
    ensures var p := Plan(curr, end, inc);
            && (i < |p| - 1 ==> Abs(p[i] - Before(curr, p, i)) == inc)
            && (i == |p| - 1 ==> 0.0 < Abs(end - Before(curr, p, i)) <= inc)
  {
    PlanPass(curr, end, inc, i);
  }

  /** Every pass gets strictly closer to the target. */
  lemma PlanProgress(curr: real, end: real, inc: real)
    requires inc > 0.0
    ensures var p := Plan(curr, end, inc);
            forall i :: 0 <= i < |p| ==> Abs(end - p[i]) < Abs(end - Before(curr, p, i))
  {
    var p := Plan(curr, end, inc);
    forall i | 0 <= i < |p| {
      PlanPass(curr, end, inc, i);
    }
  }

  /** Looks the planned HVs up in order, stopping at the first that has no
      setting. */
  function ApplyPlan(hvs: seq<real>, t: Table): (r: RampRun)
    ensures |r.steps| <= |hvs|
    ensures forall i :: 0 <= i < |r.steps| ==>
              r.steps[i].hv == hvs[i] && CalcBiasSetting(hvs[i], t) == Ok(r.steps[i].setting)
    ensures r.outcome == Reached <==> |r.steps| == |hvs|
    ensures r.outcome.Aborted? ==>
              && r.outcome.hv == hvs[|r.steps|]
              && CalcBiasSetting(r.outcome.hv, t) == Err(r.outcome.error)
  {
    if hvs == [] then RampRun([], Reached)
    else
      match CalcBiasSetting(hvs[0], t)
      case Err(e) => RampRun([], Aborted(hvs[0], e))
      case Ok(s) =>
        var rest := ApplyPlan(hvs[1..], t);
        RampRun([Step(hvs[0], s)] + rest.steps, rest.outcome)
  }

  /** The whole ramp from `curr` to `end` with increment `inc`, pass by
      pass as the source's loop runs it. */
  function RampOf(curr: real, end: real, inc: real, t: Table): RampRun
    requires inc > 0.0
    decreases StepsLeft(curr, end, inc)
  {
    if curr == end then RampRun([], Reached)
    else
      var n := NextHV(curr, end, inc);
      NextHVCountsDown(curr, end, inc);
      match CalcBiasSetting(n, t)
      case Err(e) => RampRun([], Aborted(n, e))
      case Ok(v) =>
        var rest := RampOf(n, end, inc, t);
        RampRun([Step(n, v)] + rest.steps, rest.outcome)
  }

  /** The loop's ramp is the plan looked up in order: the walk is fixed in
      advance and the table only decides where it stops. */
  lemma {:induction false} RampFollowsPlan(curr: real, end: real, inc: real, t: Table)
    requires inc > 0.0
    ensures RampOf(curr, end, inc, t) == ApplyPlan(Plan(curr, end, inc), t)
    decreases StepsLeft(curr, end, inc)
  {
    if curr != end {
      var n := NextHV(curr, end, inc);
      NextHVCountsDown(curr, end, inc);
      var p := Plan(curr, end, inc);
      assert p == [n] + Plan(n, end, inc);
      assert p[1..] == Plan(n, end, inc);
      RampFollowsPlan(n, end, inc, t);
    }
  }

  /** The writes and sleeps of the applied steps, in order. */
  function StepEffects(dcrc: int, period: int, steps: seq<Step>): (e: seq<Effect>)
    ensures |e| == 2 * |steps|
  {
    if steps == [] then []
    else [SetQI(dcrc, Round(steps[0].setting, 3)), Sleep(period)] + StepEffects(dcrc, period, steps[1..])
  }

  /** Step i writes its setting rounded to three decimals, then sleeps one
      update period. */
  lemma {:induction false} StepEffectsAt(dcrc: int, period: int, steps: seq<Step>, i: nat)
    requires i < |steps|
    ensures StepEffects(dcrc, period, steps)[2 * i] == SetQI(dcrc, Round(steps[i].setting, 3))
    ensures StepEffects(dcrc, period, steps)[2 * i + 1] == Sleep(period)
    decreases i
  {
    if i > 0 {
      StepEffectsAt(dcrc, period, steps[1..], i - 1);
      var rest := StepEffects(dcrc, period, steps[1..]);
      assert StepEffects(dcrc, period, steps)[2 * i] == rest[2 * (i - 1)];
      assert StepEffects(dcrc, period, steps)[2 * i + 1] == rest[2 * (i - 1) + 1];
    }
  }

  lemma {:induction false} StepEffectsAppend(dcrc: int, period: int, steps: seq<Step>, s: Step)
    ensures StepEffects(dcrc, period, steps + [s])
            == StepEffects(dcrc, period, steps) + [SetQI(dcrc, Round(s.setting, 3)), Sleep(period)]
    decreases |steps|
  {
    if steps != [] {
      assert (steps + [s])[1..] == steps[1..] + [s];
      StepEffectsAppend(dcrc, period, steps[1..], s);
    }
  }

  /** How far one update period may move the HV. */
  function Increment(rate: real, period: int): real {
    rate * period as real
  }

  /** The stepper `changeHVFromTo`, written as a loop like the original. It
      returns the writes and sleeps it performed and the ramp they belong to. */
  method ChangeHVFromTo(dcrc: int, start: real, end: real, rate: real, period: int, t: Table)
    returns (effects: seq<Effect>, ramp: RampRun)
    requires rate > 0.0 && period >= 1
    ensures ramp == RampOf(start, end, Increment(rate, period), t)
    ensures effects == StepEffects(dcrc, period, ramp.steps)
  {
    var curr := start;
    var inc := Increment(rate, period);
    assert inc > 0.0 by {
      ScalePositive(rate, period as real);
    }
    var steps: seq<Step> := [];
    effects := [];
    while curr != end
      invariant RampOf(start, end, inc, t).outcome == RampOf(curr, end, inc, t).outcome
      invariant RampOf(start, end, inc, t).steps == steps + RampOf(curr, end, inc, t).steps
      invariant effects == StepEffects(dcrc, period, steps)
      decreases StepsLeft(curr, end, inc)
    {
      var prev := curr;
      curr := NextHV(prev, end, inc);
      NextHVCountsDown(prev, end, inc);
      var setting := CalcBiasSetting(curr, t);
      if setting.Err? {
        ramp := RampRun(steps, Aborted(curr, setting.error));
        return;
      }
      assert RampOf(prev, end, inc, t).steps == [Step(curr, setting.value)] + RampOf(curr, end, inc, t).steps;
      StepEffectsAppend(dcrc, period, steps, Step(curr, setting.value));
      steps := steps + [Step(curr, setting.value)];
      effects := effects + [SetQI(dcrc, Round(setting.value, 3)), Sleep(period)];
    }
    ramp := RampRun(steps, Reached);
  }

  /** A ramp from the target to itself writes nothing. No ramp applies more
      steps than the distance holds increments, rounded up; one that is not
      aborted makes exactly that many, and its last applied HV is exactly
      the target. Every applied HV lies between
      start and target. */
  lemma RampReachesTarget(start: real, end: real, inc: real, t: Table)
    requires inc > 0.0
    ensures var r := RampOf(start, end, inc, t);
            && (start == end ==> r == RampRun([], Reached))
            && |r.steps| <= Ceil(Abs(end - start) / inc)
            && (r.outcome == Reached && start != end ==>
                  |r.steps| == Ceil(Abs(end - start) / inc) && r.steps[|r.steps| - 1].hv == end)
            && (forall i :: 0 <= i < |r.steps| ==> ClosedBetween(start, r.steps[i].hv, end))
  {
    PlanLength(start, end, inc);
    RampFollowsPlan(start, end, inc, t);
  }

  /** Every applied step short of the target moves exactly one increment
      toward it; the step onto the target moves at most one increment; and
      every step ends strictly closer to the target. */
  lemma RampIncrements(start: real, end: real, inc: real, t: Table, i: nat)
    requires inc > 0.0 && i < |RampOf(start, end, inc, t).steps|
    ensures var s := RampOf(start, end, inc, t).steps;
            && (s[i].hv != end ==> Abs(s[i].hv - Before(start, AppliedHVs(s), i)) == inc)
            && (s[i].hv == end ==> Abs(s[i].hv - Before(start, AppliedHVs(s), i)) <= inc)
            && Abs(end - s[i].hv) < Abs(end - Before(start, AppliedHVs(s), i))
  {
    var p := Plan(start, end, inc);
    var s := RampOf(start, end, inc, t).steps;
    BeforeApplied(start, s, i);
    assert s[i].hv == p[i] && (if i == 0 then start else s[i - 1].hv) == Before(start, p, i) by {
      RampFollowsPlan(start, end, inc, t);
    }
    PlanPass(start, end, inc, i);
  }

  /** The applied steps are the plan's HVs in order, each with its looked-up
      setting; the ramp aborts exactly when some planned HV has no setting,
      and then at the first such HV, with nothing applied after it. */
  lemma RampAbortsAtFirstGap(start: real, end: real, inc: real, t: Table)
    requires inc > 0.0
    ensures var p := Plan(start, end, inc);
            var r := RampOf(start, end, inc, t);
            && |r.steps| <= |p|
            && (forall i :: 0 <= i < |r.steps| ==>
                  r.steps[i].hv == p[i] && CalcBiasSetting(p[i], t) == Ok(r.steps[i].setting))
            && (r.outcome.Aborted? <==> exists i :: 0 <= i < |p| && CalcBiasSetting(p[i], t).Err?)
            && (r.outcome.Aborted? ==>
                  && |r.steps| < |p|
                  && r.outcome.hv == p[|r.steps|]
                  && CalcBiasSetting(p[|r.steps|], t) == Err(r.outcome.error))
  {
    var p := Plan(start, end, inc);
    var r := RampOf(start, end, inc, t);
    RampFollowsPlan(start, end, inc, t);
    if r.outcome.Aborted? {
      assert CalcBiasSetting(p[|r.steps|], t).Err?;
    }
  }

  /** When the start and the target both lie between the table's first and
      last HV, every HV on the way gets a setting and the ramp reaches the
      target. */
  lemma RampCompletesWithinTable(start: real, end: real, inc: real, t: Table)
    requires inc > 0.0 && Covers(t, start) && Covers(t, end)
    ensures RampOf(start, end, inc, t).outcome == Reached
  {
    var p := Plan(start, end, inc);
    var r := RampOf(start, end, inc, t);
    RampFollowsPlan(start, end, inc, t);
    if r.outcome.Aborted? {
      var h := p[|r.steps|];
      assert ClosedBetween(start, h, end);
      CoveredTargetsSucceed(h, t);
    }
  }

  /** The HVs of the applied steps, in order. */
  function AppliedHVs(steps: seq<Step>): seq<real> {
    seq(|steps|, i requires 0 <= i < |steps| => steps[i].hv)
  }

  /** Before step i, the ramp held the start HV or the previous step's. */
  lemma BeforeApplied(start: real, steps: seq<Step>, i: nat)
    requires i < |steps|
    ensures Before(start, AppliedHVs(steps), i) == if i == 0 then start else steps[i - 1].hv
  {
  }

  /** The worked example: from 0 V to 3 V at 1 V/s with a 1 s period the
      ramp applies 1, 2 and 3 V, writing and sleeping once for each. */
  lemma ZeroToThreeExample()
    ensures var t := [Entry(0.0, 0.0), Entry(1.0, 10.0), Entry(2.0, 20.0)];
            var r := RampOf(0.0, 3.0, Increment(1.0, 1), t);
            && r.outcome == Reached
            && AppliedHVs(r.steps) == [1.0, 2.0, 3.0]
            && StepEffects(7, 1, r.steps)
               == [SetQI(7, Round(0.1, 3)), Sleep(1), SetQI(7, Round(0.2, 3)), Sleep(1), SetQI(7, Round(0.3, 3)), Sleep(1)]
  {
    var t := [Entry(0.0, 0.0), Entry(1.0, 10.0), Entry(2.0, 20.0)];
    assert NextHV(0.0, 3.0, 1.0) == 1.0;
    assert NextHV(1.0, 3.0, 1.0) == 2.0;
    assert NextHV(2.0, 3.0, 1.0) == 3.0;
    assert CalcBiasSetting(1.0, t) == Ok(0.1);
    assert CalcBiasSetting(2.0, t) == Ok(0.2);
    assert CalcBiasSetting(3.0, t) == Ok(0.3);
    var r3 := RampOf(3.0, 3.0, 1.0, t);
    assert r3 == RampRun([], Reached);
    var r2 := RampOf(2.0, 3.0, 1.0, t);
    assert r2 == RampRun([Step(3.0, 0.3)], Reached);
    var r1 := RampOf(1.0, 3.0, 1.0, t);
    assert r1 == RampRun([Step(2.0, 0.2), Step(3.0, 0.3)], Reached);
    var r0 := RampOf(0.0, 3.0, 1.0, t);
    assert r0 == RampRun([Step(1.0, 0.1), Step(2.0, 0.2), Step(3.0, 0.3)], Reached);
    assert StepEffects(7, 1, r0.steps[2..]) == [SetQI(7, Round(0.3, 3)), Sleep(1)];
    assert StepEffects(7, 1, r0.steps[1..]) == [SetQI(7, Round(0.2, 3)), Sleep(1)] + StepEffects(7, 1, r0.steps[2..]);
  }
}

=== FILE: results.dfy ===
/** Failure-carrying return values, used in place of the program's `None`
    returns, raised exceptions and `sys.exit` calls. */
module Results {

  datatype Option<+T> = None | Some(value: T)

  datatype Result<+T, +E> = Ok(value: T) | Err(error: E)
}
